=== FILE: README.md ===
# Snarl notification manager — a Dafny model

Snarl (`dist/snarl.js`) keeps a registry of on-screen notifications in the
object `Snarl`. Each notification is identified by a random five-character
id and has an element inside the shared container `#snarl-wrapper`, an
auto-dismiss timer, a timeout, an action and an `active` flag. One click
handler on the container routes every click back to its notification. It
tells a click on the close button, which removes the notification, from a
click on the body.

The model keeps the source's own form:

- `values.dfy`:
  - `JsValues` holds the JavaScript values found in option objects, and
    `merge_options` as a map union.
  - `Optional` is a plain option type.
- `ids.dfy` (`Ids`):
  - `makeID` as a loop over supplied random values;
  - the DOM id `snarl-notification-<id>`;
  - the regular expression `/snarl-notification-([a-zA-Z0-9]+)/` as a
    leftmost, greedy parse;
  - the `lastIndexOf(...) !== -1` substring test.
- `click.dfy` (`Click`): the ancestor walk of `clickNotification`. It is a
  loop over the chain of the clicked element and its ancestors, proved
  against a reference function `Route`.
- `snarl.dfy` (`Notifications`) holds the class `Snarl`, with fields
  `count`, `notifications` and the host's timer queue. It has
  `addNotificationHTML`, `addNotification`, `editNotification`,
  `removeNotification`, `clickNotification`, `isDismissed`, the three
  setters, and `Fire`, which is the host running a timer callback.
  - The timer queue maps each armed handle to the id whose removal it
    performs, so a timer left armed is part of the state.
  - `WellFormed` is the invariant every operation keeps. Each entry has its
    element, with its own DOM id. Every handle in use is below `nextHandle`,
    so each new handle is fresh.
  - `TimersLiveIn` is the timer discipline that clearing the old timer
    before arming a new one (dist/snarl.js:112-113) aims at: every armed
    timer is the one its notification holds, and that notification is
    attached.

The model follows the code as written. Where the code differs from what
the names or the source's comments suggest, it says so in comments:

- The default `action` is `''`, not absent (dist/snarl.js:28).
- `active` is set to `false` on removal but never set to `true`.
- `removeNotification` keeps the entry in the registry.
- Editing an unknown or removed id creates or re-attaches it (dist/snarl.js:102).
- `isDismissed` answers `true` while the element is still attached
  (dist/snarl.js:178).
- A body click never navigates or calls back (dist/snarl.js:166-172).
- `maxDepth` is never decremented, so the ancestor walk is unbounded
  (dist/snarl.js:145-157).
- The old timer is cleared only when the options object has no
  `timer: null` (dist/snarl.js:112). An edit that passes `timer: null`
  leaves the old timer armed. `TimerNullLeaksTimer` and
  `StaleTimerExample` exhibit the two armed timers this produces for one
  notification.

## Model

| member | source | states |
|---|---|---|
| JsValues.MergeOptions | dist/snarl.js:58-63 | the merge has exactly the keys of both inputs; a key of the second object takes its value, any other key keeps the first object's value |
| JsValues.MergedGet | dist/snarl.js:58-63 | reading a merged property gives the override when the key is present (even holding `undefined`), else the base's value or `undefined` |
| Ids.CharIndex | dist/snarl.js:75-77 | `Math.floor(r * 36)` for `0 <= r < 1` is a valid index into the alphabet |
| Ids.MakeId | dist/snarl.js:70-81 | the loop returns exactly five characters, all from `a-z0-9`, the i-th being the one picked by the i-th random value (the reference function `Ids.DrawnId`) |
| Ids.EveryIdCanBeDrawn | dist/snarl.js:70-81 | every five-character string over the alphabet is produced by some five random values in [0, 1) |
| Ids.AlnumRun | dist/snarl.js:161 | the greedy `[a-zA-Z0-9]+` consumes a prefix made of letters and digits and stops before the first other character |
| Ids.ExecSound | dist/snarl.js:160-161 | `Ids.Exec` models `exec`, and `Ids.ParseId` applies it to the id attribute (a missing attribute reads as "null"). When exec matches, group 1 is a non-empty, maximal run of letters and digits that follows `snarl-notification-` somewhere in the input |
| Ids.ExecLeftmost | dist/snarl.js:161 | `exec` returns the leftmost match: group 1 is the greedy letters-and-digits run after the first position where `snarl-notification-` is followed by a letter or digit, and the pattern matches at no earlier position. So a DOM id holding the prefix twice parses to the id after the first occurrence |
| Ids.ExecComplete | dist/snarl.js:161 | for `Ids.Exec`: wherever `snarl-notification-` is followed by a letter or digit, exec matches |
| Ids.DomIdRoundTrip | dist/snarl.js:161 | the DOM id `snarl-notification-` + id built at line 41 parses back to id for every non-empty alphanumeric id |
| Ids.MadeIdRoundTrip | dist/snarl.js:161 | every id `makeID` can return survives the DOM-id round trip |
| Ids.ContainsIffOccurs | dist/snarl.js:148-150 | `Ids.Contains`, the model of `lastIndexOf(t) !== -1`, holds exactly when `t` occurs at some position |
| Click.ScanMeaning | dist/snarl.js:145-158 | for the reference walk `Click.Scan`: the walk stops at the lowest notification element, with `close` set iff a close button lies below it, or finds none |
| Click.RouteMeaning | dist/snarl.js:141-158 | for the reference route `Click.Route`: a click on the container is ignored; otherwise the walk ends at the first notification boundary with `close` iff a close button was passed, or runs off the root when there is none |
| Click.WalkToNotification | dist/snarl.js:141-158 | the imperative walk computes the reference route |
| Click.CloseIconRoutesToItsNotification | dist/snarl.js:37-41 | a click on the close icon of the built markup is a close click on that notification, whose id parses back |
| Click.TitleRoutesToItsNotification | dist/snarl.js:37-41 | a click on the title is a body click on that notification, whose id parses back |
| Notifications.Prepared | dist/snarl.js:32-47 | the entry exists and its element is attached; an existing element is kept and only re-attached; other fields are unchanged |
| Notifications.PreparedIdempotent | dist/snarl.js:32-47 | `addNotificationHTML` twice is the same as once |
| Notifications.Cancel | dist/snarl.js:113 | `clearTimeout` disarms exactly the given handle and is a no-op for none |
| Notifications.EditedFieldwise | dist/snarl.js:104-130 | for `Notifications.Edited`, the entry an edit leaves: title, text, action and timeout change exactly when their option is not undefined; a defined timeout arms a timer iff it is not null and is stored as given; attachment, DOM id and `active` never change |
| Notifications.ApplyEdit | dist/snarl.js:104-130 | the imperative edit body yields the entry `Notifications.Edited`, the timer queue `Notifications.Rearmed` (the old timer cleared unless `options.timer` is null, a new one armed unless the timeout is null) and the next handle |
| Notifications.NewEntry | dist/snarl.js:91-96 | a new notification has the caller's title and text unless undefined, else `''`; action and timeout as given if present, else `''` and 5000; a timer iff the timeout is not undefined or null; `active` unset |
| Notifications.EditKeepsInvariants | dist/snarl.js:111-127 | an edit keeps the registry well formed, and keeps one live timer per notification unless `timer: null` skips clearing an armed timer |
| Notifications.TimerNullLeaksTimer | dist/snarl.js:111-114 | after a default notification, an edit with `{timeout: 100, timer: null}` leaves two armed timers for it, and the older one no longer matches the entry |
| Notifications.StaleTimerExample | dist/snarl.js:111-125 | the same run on the class reaches a well-formed state that breaks the timer discipline |
| Notifications.Snarl.AtMostOneTimer | dist/snarl.js:111-125 | under the timer discipline, no two armed timers target one notification |
| Notifications.Snarl.constructor | dist/snarl.js:66-68 | a fresh registry is empty, with count 0 and no timers |
| Notifications.Snarl.AddNotificationHtml | dist/snarl.js:32-47 | only entry `id` changes, to its prepared form; the timer queue and count are unchanged |
| Notifications.Snarl.EditNotification | dist/snarl.js:101-131 | only entry `id` changes, to the field-wise edit of its prepared form; the element ends attached; the timer queue is re-armed as specified; well-formedness is kept, and the timer discipline too unless `timer: null` leaves an armed timer |
| Notifications.Snarl.DrawFreshId | dist/snarl.js:85-88 | the retry loop returns the first drawn id (`Notifications.Draw`, the n-th `makeID` call on the stream) that is not a key of the registry |
| Notifications.Snarl.AddNotification | dist/snarl.js:83-99 | returns a fresh, well-shaped, attached id; count grows by one; other entries are unchanged; the new entry is the merged-defaults edit |
| Notifications.Snarl.RemoveNotification | dist/snarl.js:133-138 | the entry becomes `Notifications.Removed` of the old one: the element is detached and `active` is false. Its current timer is cleared, the key is kept and other entries are unchanged; under the timer discipline no timer targets the id afterwards; `isDismissed` answers false |
| Notifications.Snarl.Fire | dist/snarl.js:120-123 | a firing timer removes its notification exactly when the element is attached; otherwise only the fired timer disappears; under the timer discipline it always removes |
| Notifications.Snarl.ClickNotification | dist/snarl.js:140-175 | a click on the container does nothing; a close click removes exactly the parsed id; a body click and every throwing path change nothing |
| Notifications.Snarl.IsDismissed | dist/snarl.js:177-179 | the answer is true exactly when the element is attached |
| Notifications.Snarl.SetTitle | dist/snarl.js:181-183 | entry `id` is first created or re-attached as by `addNotificationHTML`; then only its title changes, and only when the title is not undefined; timers are untouched |
| Notifications.Snarl.SetText | dist/snarl.js:185-187 | entry `id` is first created or re-attached as by `addNotificationHTML`; then only its text changes, and only when the text is not undefined; timers are untouched |
| Notifications.Snarl.SetTimeout | dist/snarl.js:189-191 | entry `id` is first created or re-attached; a defined timeout clears the previous timer and is stored; a new timer, with the next handle, is armed iff it is not null |

## Left out

- `snarlInitialize` and the document-ready bootstrap (dist/snarl.js:195-228): DOM and event-listener setup. Only the container's id is kept.
- Building the element's HTML (dist/snarl.js:37-42): an element is an abstract value.
- The `textContent` writes (dist/snarl.js:106, 109): the model stores the value written, not its string conversion.
- `Math.random`: its results are a parameter, a sequence of reals in [0, 1).
- `Notifications.Snarl.AddNotification`: requires that some block of five random values yields an unused id. The source loops forever otherwise, and a non-terminating loop is not modelled.
- `Notifications.Snarl.DrawFreshId`: has the same requirement for the same reason.
- Wall-clock time and real scheduling: `setTimeout`/`clearTimeout` act on an explicit queue of armed handles, and `Fire` runs one callback at any moment the host chooses.
- Exceptions thrown inside a timer callback: modelled as a no-op apart from the fired timer leaving the queue.
- `Notifications.Snarl.IsDismissed`: requires the id to be in the registry. For an unknown id the source throws a TypeError reading `element` of `undefined` (dist/snarl.js:178), and the model does not return that error.
- `Notifications.Snarl.EditNotification`: takes an options map, so it does not model a call with `options` undefined or null. There the source creates or re-attaches the entry (dist/snarl.js:102) and then throws on `options.text` (dist/snarl.js:105).
- Registry keys that collide with `Object.prototype` properties, such as `__proto__`, `constructor` or `toString`, are not modelled. The registry is a map from any string, while in the source such an id reads as present (dist/snarl.js:33, 86), and `__proto__` would write `element` onto the prototype (dist/snarl.js:42). `makeID` never produces such ids; only a caller passing one to `editNotification` or the setters could.
- `Notifications.Snarl.RemoveNotification`: requires the element to be attached, because the source throws on `null.parentElement` otherwise.
- `Notifications.Snarl.ClickNotification`: a close click on an id whose element is not attached returns `Fault` with no change, standing for the same exception inside the click handler.
- Navigation through `window.location` and invoking an action callback (dist/snarl.js:170, 172): external effects, and unreachable as written.
- `console.debug` (dist/snarl.js:155, 196): logging only.
- The empty `formatOptions` stub (dist/snarl.js:49-53): it has no body.
- The unreachable `options.timeout === undefined` branch (dist/snarl.js:116-118).
- The `window.Snarl` export (dist/snarl.js:230).
- The unused `reopen` parameter of `editNotification`.
- Falsy option values other than `undefined` and `null` passed to `addNotification` (`options || {}`): options are a map or absent.
- Timeout values that are not numbers are stored as given; the host's coercion of the delay is not modelled.
- JavaScript numbers are integers in the model (`Num(n: int)`), so a timeout such as `1.5`, `NaN` or `Infinity` cannot be stored as given (dist/snarl.js:126). Only the comparisons with `null` and `undefined` depend on the timeout.
- `event.toElement` (dist/snarl.js:141, 146) is non-standard; the model takes it to be the clicked element, `chain[0]`.
- DOM elements that carry a notification's DOM id but are not in the registry: elements exist only through the registry.

=== FILE: click.dfy ===
/**
 * The ancestor walk of `clickNotification` (dist/snarl.js:141-158): from the
 * clicked element upwards until an element whose class names the
 * notification, noting on the way whether a close button was passed.
 *
 * The DOM is abstracted to the chain of the clicked element and its
 * ancestors: `chain[0]` is the clicked element (the source reads it as the
 * non-standard `event.toElement`), `chain[i + 1]` is the parent
 * of `chain[i]`, and the last node is the document root (its parent is null).
 */
module Click {
  import opened Optional
  import opened Ids

  /** An element as the router sees it: its `className` and its `id` attribute. */
  datatype Node = Node(className: string, idAttr: Option<string>)

  /** The id of the shared container all notifications live in (dist/snarl.js:141, 198). */
  const WrapperId: string := "snarl-wrapper"
  /** Class marker of a notification's outer element (dist/snarl.js:40, 148). */
  const NotificationClass: string := "snarl-notification"
  /** Class marker of the close button inside a notification (dist/snarl.js:37, 150). */
  const CloseClass: string := "snarl-close"

  predicate IsBoundary(n: Node) {
    Contains(n.className, NotificationClass)
  }

  predicate IsClose(n: Node) {
    Contains(n.className, CloseClass)
  }

  /** Where the walk ends. */
  datatype Walk =
    | OnWrapper                    // the click hit the container itself: nothing to do
    | Found(at: nat, close: bool)  // chain[at] is the notification; close: a close button was passed
    | RanOff                       // no notification above the target: reading `className` of null throws

  /**
   * Reference definition of the walk from position `i` on, `close` being
   * what was seen below `i`.
   */
  function Scan(chain: seq<Node>, i: nat, close: bool): Walk
    requires i <= |chain|
    decreases |chain| - i
  {
    if i == |chain| then RanOff
    else if IsBoundary(chain[i]) then Found(i, close)
    else Scan(chain, i + 1, close || IsClose(chain[i]))
  }

  /** Reference definition of where a click on `chain[0]` is routed. */
  function Route(chain: seq<Node>): Walk
    requires chain != []
  {
    if chain[0].idAttr == Some(WrapperId) then OnWrapper else Scan(chain, 0, false)
  }

  /** `chain[b]` is the lowest notification element on the chain. */
  predicate IsFirstBoundary(chain: seq<Node>, b: nat) {
    b < |chain| && IsBoundary(chain[b]) && forall j :: 0 <= j < b ==> !IsBoundary(chain[j])
  }

  /** A close button lies strictly below position `b`. */
  predicate CloseBelow(chain: seq<Node>, b: nat)
    requires b <= |chain|
  {
    exists j :: 0 <= j < b && IsClose(chain[j])
  }

  lemma {:induction false} ScanMeaning(chain: seq<Node>, i: nat, close: bool)
    requires i <= |chain|
    requires forall j :: 0 <= j < i ==> !IsBoundary(chain[j])
    requires close <==> CloseBelow(chain, i)
    ensures match Scan(chain, i, close)
      case OnWrapper => false
      case RanOff => forall j :: 0 <= j < |chain| ==> !IsBoundary(chain[j])
      case Found(b, c) => IsFirstBoundary(chain, b) && (c <==> CloseBelow(chain, b))
    decreases |chain| - i
  {
    if i < |chain| && !IsBoundary(chain[i]) {
      var close' := close || IsClose(chain[i]);
      assert close' <==> CloseBelow(chain, i + 1) by {
        if IsClose(chain[i]) {
          assert CloseBelow(chain, i + 1);
        }
        if CloseBelow(chain, i + 1) {
          var j :| 0 <= j < i + 1 && IsClose(chain[j]);
          assert j == i || CloseBelow(chain, i);
        }
      }
      ScanMeaning(chain, i + 1, close');
    }
  }

  /**
   * What the walk means: a click on the container is ignored; otherwise the
   * walk stops at the lowest notification element, with `close` set exactly
   * when a close button lies below it, or runs off the root when there is no
   * notification element at all.
   */
  lemma RouteMeaning(chain: seq<Node>)
    requires chain != []
    ensures match Route(chain)
      case OnWrapper => chain[0].idAttr == Some(WrapperId)
      case RanOff => chain[0].idAttr != Some(WrapperId) && forall j :: 0 <= j < |chain| ==> !IsBoundary(chain[j])
      case Found(b, c) => chain[0].idAttr != Some(WrapperId) && IsFirstBoundary(chain, b) && (c <==> CloseBelow(chain, b))
  {
    if chain[0].idAttr != Some(WrapperId) {
      ScanMeaning(chain, 0, false);
    }
  }

  /**
   * Lines 141-158 of `clickNotification`. The source also keeps a counter
   * `maxDepth = 3` meant to bound the walk, but never decrements it, so its
   * `maxDepth > 0` test always holds and the "no notification was found"
   * exit (lines 154-156) is unreachable: the walk is not bounded. It ends at
   * a notification element or runs past the root.
   */
  method WalkToNotification(chain: seq<Node>) returns (w: Walk)
    requires chain != []
    ensures w == Route(chain)
  {
    if chain[0].idAttr == Some(WrapperId) {
      return OnWrapper;
    }
    var i := 0;
    var close := false;
    while i < |chain| && !Contains(chain[i].className, NotificationClass)
      invariant i <= |chain|
      invariant Scan(chain, i, close) == Scan(chain, 0, false)
      decreases |chain| - i
    {
      if Contains(chain[i].className, CloseClass) {
        close := true;
      }
      i := i + 1;
    }
    if i == |chain| {
      return RanOff;
    }
    return Found(i, close);
  }

  /**
   * The markup of a notification (dist/snarl.js:37-41) inside the container:
   * a click on the close icon is routed to that notification as a close
   * click, and its id reads back out of the element's DOM id.
   */
  lemma CloseIconRoutesToItsNotification(id: string)
    requires IsId(id)
    ensures var chain := [Node("fa fa-close", None), Node(CloseClass, None),
                          Node(NotificationClass, Some(DomId(id))), Node("", Some(WrapperId))];
      Route(chain) == Found(2, true) && ParseId(chain[2].idAttr) == Some(id)
  {
    var chain := [Node("fa fa-close", None), Node(CloseClass, None),
                  Node(NotificationClass, Some(DomId(id))), Node("", Some(WrapperId))];
    var icon := "fa fa-close";
    assert !(CloseClass <= icon) by { assert CloseClass[0] != icon[0]; }
    assert !Contains(icon[1..], CloseClass);
    assert !IsBoundary(chain[0]) && !IsClose(chain[0]);
    assert !IsBoundary(chain[1]) && IsClose(chain[1]);
    assert IsBoundary(chain[2]);
    assert Scan(chain, 2, true) == Found(2, true);
    assert Scan(chain, 1, false) == Found(2, true);
    MadeIdRoundTrip(id);
  }

  /** A click on a notification's title is routed to it as a body click. */
  lemma TitleRoutesToItsNotification(id: string)
    requires IsId(id)
    ensures var chain := [Node("title", None), Node(NotificationClass, Some(DomId(id))), Node("", Some(WrapperId))];
      Route(chain) == Found(1, false) && ParseId(chain[1].idAttr) == Some(id)
  {
    var chain := [Node("title", None), Node(NotificationClass, Some(DomId(id))), Node("", Some(WrapperId))];
    assert !IsBoundary(chain[0]) && !IsClose(chain[0]);
    assert IsBoundary(chain[1]);
    assert Scan(chain, 1, false) == Found(1, false);
    MadeIdRoundTrip(id);
  }
}

=== FILE: ids.dfy ===
/**
 * Notification identifiers: the random 5-character draw (`makeID`), the DOM
 * id built from an identifier, the regular expression that reads the
 * identifier back out of a DOM id, and the substring test the click router
 * applies to class names.
 */
module Ids {
  import opened Optional

  /** The characters `makeID` draws from (dist/snarl.js:72). */
  const Alphabet: string := "abcdefghijklmnopqrstuvwxyz0123456789"

  /** Number of characters in an identifier (dist/snarl.js:74). */
  const IdLength: nat := 5

  /** Every identifier `makeID` can produce has this shape. */
  predicate IsId(s: string) {
    |s| == IdLength && forall i :: 0 <= i < |s| ==> s[i] in Alphabet
  }

  /** A value `Math.random()` may return. */
  predicate IsRandom(r: real) {
    0.0 <= r < 1.0
  }

  predicate AllRandom(rnd: seq<real>) {
    forall i :: 0 <= i < |rnd| ==> IsRandom(rnd[i])
  }

  /** `Math.floor(Math.random() * possible.length)` (dist/snarl.js:76). */
  function CharIndex(r: real): (k: nat)
    requires IsRandom(r)
    ensures k < |Alphabet|
  {
    (r * (|Alphabet| as real)).Floor
  }

  /** The characters `makeID` picks for the random values `rnd`, in order. */
  function DrawnId(rnd: seq<real>): (id: string)
    requires AllRandom(rnd)
  {
    seq(|rnd|, i requires 0 <= i < |rnd| => Alphabet[CharIndex(rnd[i])])
  }

  /**
   * `makeID` (dist/snarl.js:70-81): appends five characters of `Alphabet`,
   * each picked by one call of `Math.random()`; `rnd` holds those five
   * results.
   */
  method MakeId(rnd: seq<real>) returns (text: string)
    requires |rnd| == IdLength && AllRandom(rnd)
    ensures IsId(text)
    ensures text == DrawnId(rnd)
  {
    text := "";
    var possible := Alphabet;
    for i := 0 to IdLength
      invariant |text| == i
      invariant forall j :: 0 <= j < i ==> text[j] == possible[CharIndex(rnd[j])]
    {
      text := text + [possible[CharIndex(rnd[i])]];
    }
  }

  /** Position of `c` in `s`. */
  function IndexOf(s: string, c: char): (k: nat)
    requires c in s
    ensures k < |s| && s[k] == c
  {
    if s[0] == c then 0 else 1 + IndexOf(s[1..], c)
  }

  /**
   * Every identifier of the right shape is drawn by some five values of
   * `Math.random()`: the model of `makeID` rules no identifier out.
   */
  lemma EveryIdCanBeDrawn(id: string)
    requires IsId(id)
    ensures exists rnd :: |rnd| == IdLength && AllRandom(rnd) && DrawnId(rnd) == id
  {
    var rnd := seq(IdLength, i requires 0 <= i < IdLength => Slot(IndexOf(Alphabet, id[i])));
    forall i | 0 <= i < IdLength
      ensures IsRandom(rnd[i]) && Alphabet[CharIndex(rnd[i])] == id[i]
    {
      SlotPicks(IndexOf(Alphabet, id[i]));
    }
    assert DrawnId(rnd) == id;
  }

  /** A random value that picks the character at position `k`. */
  function Slot(k: nat): real {
    (k as real) / (|Alphabet| as real)
  }

  lemma SlotPicks(k: nat)
    requires k < |Alphabet|
    ensures IsRandom(Slot(k)) && CharIndex(Slot(k)) == k
  {
  }

  /** The two halves of `Alphabet`. */
  const Letters: string := "abcdefghijklmnopqrstuvwxyz"
  const Digits: string := "0123456789"

  lemma LetterIsLower(c: char)
    requires c in Letters
    ensures 'a' <= c <= 'z'
  {
  }

  lemma DigitIsDigit(c: char)
    requires c in Digits
    ensures '0' <= c <= '9'
  {
  }

  lemma AlphabetIsAlnum(c: char)
    requires c in Alphabet
    ensures IsAlnum(c)
  {
    assert Alphabet == Letters + Digits;
    if c in Letters {
      LetterIsLower(c);
    } else {
      DigitIsDigit(c);
    }
  }

  /** The prefix of a notification element's DOM id (dist/snarl.js:41). */
  const Prefix: string := "snarl-notification-"

  /** DOM id of the element of notification `id` (dist/snarl.js:41). */
  function DomId(id: string): string {
    Prefix + id
  }

  /** The character class `[a-zA-Z0-9]`. */
  predicate IsAlnum(c: char) {
    'a' <= c <= 'z' || 'A' <= c <= 'Z' || '0' <= c <= '9'
  }

  predicate AllAlnum(s: string) {
    forall i :: 0 <= i < |s| ==> IsAlnum(s[i])
  }

  /** What the greedy `[a-zA-Z0-9]+` consumes at the start of `s`. */
  function AlnumRun(s: string): (run: string)
    ensures run <= s && AllAlnum(run)
    ensures |run| < |s| ==> !IsAlnum(s[|run|])
  {
    if s != [] && IsAlnum(s[0]) then [s[0]] + AlnumRun(s[1..]) else []
  }

  /**
   * `/snarl-notification-([a-zA-Z0-9]+)/.exec(s)` and its group 1
   * (dist/snarl.js:161): the pattern is not anchored, so the leftmost
   * position where it matches decides; `None` is exec's `null`.
   */
  function Exec(s: string): Option<string>
    decreases |s|
  {
    if |Prefix| < |s| && Prefix <= s && IsAlnum(s[|Prefix|]) then
      Some(AlnumRun(s[|Prefix|..]))
    else if s == [] then None
    else Exec(s[1..])
  }

  /**
   * The identifier read from a DOM id attribute. `getAttribute` returns
   * `null` for a missing attribute, which `exec` reads as the string "null".
   */
  function ParseId(idAttr: Option<string>): Option<string> {
    Exec(if idAttr.Some? then idAttr.value else "null")
  }

  /** `t` occurs in `s` at position `i`. */
  predicate OccursAt(s: string, t: string, i: nat) {
    i + |t| <= |s| && s[i..i + |t|] == t
  }

  lemma {:induction false} AlnumRunOfAlnum(s: string)
    requires AllAlnum(s)
    ensures AlnumRun(s) == s
  {
    if s != [] {
      AlnumRunOfAlnum(s[1..]);
      assert [s[0]] + s[1..] == s;
    }
  }

  /**
   * Round trip: the DOM id built for an identifier made of letters and
   * digits parses back to that identifier.
   */
  lemma DomIdRoundTrip(id: string)
    requires id != [] && AllAlnum(id)
    ensures ParseId(Some(DomId(id))) == Some(id)
  {
    var s := DomId(id);
    assert s[..|Prefix|] == Prefix;
    assert s[|Prefix|..] == id;
    assert s[|Prefix|] == id[0];
    AlnumRunOfAlnum(id);
  }

  /** Every identifier `makeID` can produce survives the round trip. */
  lemma MadeIdRoundTrip(id: string)
    requires IsId(id)
    ensures ParseId(Some(DomId(id))) == Some(id)
  {
    forall i | 0 <= i < |id| ensures IsAlnum(id[i]) {
      AlphabetIsAlnum(id[i]);
    }
    DomIdRoundTrip(id);
  }

  /**
   * What exec extracts is a non-empty run of letters and digits that
   * follows the prefix somewhere in `s`, and the run is maximal there.
   */
  lemma {:induction false} ExecSound(s: string)
    requires Exec(s).Some?
    ensures var t := Exec(s).value;
      t != [] && AllAlnum(t) &&
      exists i: nat :: OccursAt(s, Prefix + t, i) && (i + |Prefix| + |t| < |s| ==> !IsAlnum(s[i + |Prefix| + |t|]))
  {
    var t := Exec(s).value;
    if |Prefix| < |s| && Prefix <= s && IsAlnum(s[|Prefix|]) {
      MatchAtStart(s);
    } else {
      ExecSound(s[1..]);
      var i: nat :| OccursAt(s[1..], Prefix + t, i)
               && (i + |Prefix| + |t| < |s[1..]| ==> !IsAlnum(s[1..][i + |Prefix| + |t|]));
      OccursShift(s, Prefix + t, i);
    }
  }

  /** The case where the match starts at position 0. */
  lemma MatchAtStart(s: string)
    requires |Prefix| < |s| && Prefix <= s && IsAlnum(s[|Prefix|])
    ensures var t := AlnumRun(s[|Prefix|..]);
      t != [] && OccursAt(s, Prefix + t, 0) && (|Prefix| + |t| < |s| ==> !IsAlnum(s[|Prefix| + |t|]))
  {
    var rest := s[|Prefix|..];
    var t := AlnumRun(rest);
    assert s[0..|Prefix| + |t|] == Prefix + t;
  }

  /** An occurrence in the tail of `s` is an occurrence in `s`, one further on. */
  lemma OccursShift(s: string, u: string, i: nat)
    requires s != [] && OccursAt(s[1..], u, i)
    ensures OccursAt(s, u, i + 1)
  {
    assert s[i + 1..i + 1 + |u|] == s[1..][i..i + |u|];
  }

  /** The pattern matches at position `i`: the prefix, then a letter or digit. */
  predicate MatchesAt(s: string, i: nat) {
    OccursAt(s, Prefix, i) && i + |Prefix| < |s| && IsAlnum(s[i + |Prefix|])
  }

  /**
   * `exec` returns the leftmost match: group 1 is the greedy run after the
   * first position where the pattern matches, and it matches nowhere before.
   */
  lemma {:induction false} ExecLeftmost(s: string)
    requires Exec(s).Some?
    ensures exists i: nat :: MatchesAt(s, i) && Exec(s).value == AlnumRun(s[i + |Prefix|..])
                             && forall j: nat :: j < i ==> !MatchesAt(s, j)
    decreases |s|
  {
    MatchesAtStart(s);
    if MatchesAt(s, 0) {
      assert Exec(s).value == AlnumRun(s[0 + |Prefix|..]);
    } else {
      var rest := s[1..];
      ExecLeftmost(rest);
      var i: nat :| MatchesAt(rest, i) && Exec(rest).value == AlnumRun(rest[i + |Prefix|..])
                    && forall j: nat :: j < i ==> !MatchesAt(rest, j);
      MatchesShift(s, i + 1);
      assert rest[i + |Prefix|..] == s[i + 1 + |Prefix|..];
      forall j: nat | j < i + 1 ensures !MatchesAt(s, j) {
        if j > 0 {
          MatchesShift(s, j);
        }
      }
    }
  }

  lemma MatchesAtStart(s: string)
    ensures MatchesAt(s, 0) <==> |Prefix| < |s| && Prefix <= s && IsAlnum(s[|Prefix|])
  {
    if |Prefix| <= |s| {
      assert s[0..|Prefix|] == s[..|Prefix|];
    }
  }

  lemma MatchesShift(s: string, j: nat)
    requires s != [] && j > 0
    ensures MatchesAt(s, j) <==> MatchesAt(s[1..], j - 1)
  {
    if j + |Prefix| <= |s| {
      assert s[j..j + |Prefix|] == s[1..][j - 1..j - 1 + |Prefix|];
    }
  }

  /** Wherever the prefix is followed by a letter or digit, exec finds a match. */
  lemma {:induction false} ExecComplete(s: string, i: nat)
    requires OccursAt(s, Prefix, i) && i + |Prefix| < |s| && IsAlnum(s[i + |Prefix|])
    ensures Exec(s).Some?
    decreases i
  {
    if i == 0 {
      assert s[..|Prefix|] == Prefix;
    } else if !(|Prefix| < |s| && Prefix <= s && IsAlnum(s[|Prefix|])) {
      var rest := s[1..];
      assert rest[i - 1..i - 1 + |Prefix|] == s[i..i + |Prefix|];
      assert rest[i - 1 + |Prefix|] == s[i + |Prefix|];
      ExecComplete(rest, i - 1);
    }
  }

  /** `s.lastIndexOf(t) !== -1`: `t` occurs somewhere in `s`. */
  function Contains(s: string, t: string): bool
    decreases |s|
  {
    |t| <= |s| && (t <= s || Contains(s[1..], t))
  }

  /** The substring test agrees with "occurs at some position". */
  lemma {:induction false} ContainsIffOccurs(s: string, t: string)
    ensures Contains(s, t) <==> exists i: nat :: OccursAt(s, t, i)
    decreases |s|
  {
    if |t| > |s| {
    } else if t <= s {
      assert OccursAt(s, t, 0);
    } else {
      ContainsIffOccurs(s[1..], t);
      if Contains(s, t) {
        var i: nat :| OccursAt(s[1..], t, i);
        assert s[i + 1..i + 1 + |t|] == s[1..][i..i + |t|];
        assert OccursAt(s, t, i + 1);
      }
      if exists i: nat :: OccursAt(s, t, i) {
        var i: nat :| OccursAt(s, t, i);
        assert i != 0;
        assert s[1..][i - 1..i - 1 + |t|] == s[i..i + |t|];
        assert OccursAt(s[1..], t, i - 1);
      }
    }
  }
}

=== FILE: snarl.dfy ===
/**
 * The `Snarl` object (dist/snarl.js:23-192): the registry of notifications,
 * identifier allocation, per-field editing, removal, timer-driven expiry
 * and the delegated click handler.
 *
 * The DOM is abstracted: a notification's element is a value saying whether
 * it is attached to the container, what was last written into its title and
 * text, and its DOM id. The host's timer queue (`setTimeout` and
 * `clearTimeout`) is part of the state as `pending`, from timer handle to the
 * id whose removal the timer's callback performs, so that a timer left
 * armed can be seen; `Fire` is the host running one of these callbacks.
 */
module Notifications {
  import opened Optional
  import opened JsValues
  import opened Ids
  import opened Click

  /** A notification's element (dist/snarl.js:37-42). */
  datatype Element = Element(attached: bool, title: Value, text: Value, domId: string)

  /**
   * One entry of `Snarl.notifications`. A property that was never assigned
   * reads as `undefined`; `timer` is the handle `setTimeout` returned, with
   * `None` for both undefined and null.
   */
  datatype Record = Record(element: Option<Element>, timer: Option<nat>, timeout: Value, action: Value, active: Value)

  /** The empty object `{}` a new entry starts as (dist/snarl.js:34). */
  const Blank: Record := Record(None, None, Undefined, Undefined, Undefined)

  /** `defaultOptions` (dist/snarl.js:24-29). */
  const Defaults: Options := map["title" := Str(""), "text" := Str(""), "timeout" := Num(5000), "action" := Str("")]

  /** The per-field rule of `editNotification`: a field changes only when its option is not undefined. */
  function Override(current: Value, given: Value): Value {
    if given != Undefined then given else current
  }

  function Lookup(m: map<string, Record>, id: string): Option<Record> {
    if id in m then Some(m[id]) else None
  }

  /** A freshly built element: empty title and text, not yet attached (dist/snarl.js:37-41). */
  function NewElement(id: string): Element {
    Element(false, Str(""), Str(""), DomId(id))
  }

  /**
   * The entry `addNotificationHTML` leaves for `id`, given the entry before
   * (if any): it exists, has an element and that element is attached;
   * nothing else about it changes.
   */
  function Prepared(prior: Option<Record>, id: string): (r: Record)
    ensures r.element.Some? && r.element.value.attached
    ensures r == (if prior.Some? then prior.value else Blank).(element := r.element)
    ensures prior.Some? && prior.value.element.Some? ==> r.element.value == prior.value.element.value.(attached := true)
    ensures prior.None? ==> r.element.value == NewElement(id).(attached := true)
  {
    var rec := if prior.Some? then prior.value else Blank;
    var el := if rec.element.Some? then rec.element.value else NewElement(id);
    rec.(element := Some(el.(attached := true)))
  }

  /** Preparing an entry twice is the same as preparing it once. */
  lemma PreparedIdempotent(prior: Option<Record>, id: string)
    ensures Prepared(Some(Prepared(prior, id)), id) == Prepared(prior, id)
  {
  }

  /** `clearTimeout(t)`: a no-op for undefined, null and handles no longer pending. */
  function Cancel(pending: map<nat, string>, t: Option<nat>): (p: map<nat, string>)
    ensures t.Some? ==> t.value !in p
    ensures forall h :: h in p <==> h in pending && t != Some(h)
    ensures forall h :: h in p ==> p[h] == pending[h]
  {
    if t.Some? then pending - {t.value} else pending
  }

  /**
   * The entry `editNotification` leaves, given the entry `r0` that
   * `addNotificationHTML` prepared and the handle the next `setTimeout`
   * returns.
   */
  function Edited(r0: Record, options: Options, handle: nat): Record
    requires r0.element.Some?
  {
    var e0 := r0.element.value;
    var timeout := Get(options, "timeout");
    r0.(element := Some(e0.(title := Override(e0.title, Get(options, "title")),
                            text := Override(e0.text, Get(options, "text")))),
        action := Override(r0.action, Get(options, "action")),
        timeout := Override(r0.timeout, timeout),
        timer := if timeout == Undefined then r0.timer else if timeout == Null then None else Some(handle))
  }

  /**
   * Field by field: title, text, action and timeout take the option's value
   * when it is not undefined and keep theirs otherwise; a defined timeout
   * arms a new timer exactly when it is not null; attachment, DOM id and
   * `active` never change.
   */
  lemma EditedFieldwise(r0: Record, options: Options, handle: nat)
    requires r0.element.Some?
    ensures var r := Edited(r0, options, handle);
            var e0, e := r0.element.value, r.element.value;
            && r.element.Some? && e.attached == e0.attached && e.domId == e0.domId && r.active == r0.active
            && (Get(options, "title") != Undefined ==> e.title == Get(options, "title"))
            && (Get(options, "title") == Undefined ==> e.title == e0.title)
            && (Get(options, "text") != Undefined ==> e.text == Get(options, "text"))
            && (Get(options, "text") == Undefined ==> e.text == e0.text)
            && (Get(options, "action") != Undefined ==> r.action == Get(options, "action"))
            && (Get(options, "action") == Undefined ==> r.action == r0.action)
            && (Get(options, "timeout") != Undefined ==>
                  r.timeout == Get(options, "timeout") && (r.timer.Some? <==> Get(options, "timeout") != Null))
            && (Get(options, "timeout") == Undefined ==> r.timeout == r0.timeout && r.timer == r0.timer)
  {
  }

  /** `editNotification` arms a timer: the timeout is given and is not null. */
  predicate Arms(options: Options) {
    Get(options, "timeout") != Undefined && Get(options, "timeout") != Null
  }

  /**
   * The host's timer queue after `editNotification` on an entry holding
   * timer `held`, `handle` being what the next `setTimeout` returns. A
   * defined timeout clears `held` (as written, only when the options object
   * has no `timer` property equal to null) and arms `handle` unless the
   * timeout is null.
   */
  function Rearmed(pending: map<nat, string>, held: Option<nat>, options: Options, handle: nat, id: string): map<nat, string> {
    var timeout := Get(options, "timeout");
    if timeout == Undefined then pending
    else
      var kept := if Get(options, "timer") != Null then Cancel(pending, held) else pending;
      if timeout == Null then kept else kept[handle := id]
  }

  /**
   * Editing an attached entry keeps the registry well formed, and keeps the
   * timer discipline unless a defined timeout comes with `timer: null`
   * while the entry holds an armed timer.
   */
  lemma EditKeepsInvariants(m: map<string, Record>, pending: map<nat, string>, next: nat, id: string, options: Options)
    requires WellFormed(m, pending, next) && AttachedIn(m, id)
    ensures var r := Edited(m[id], options, next);
            var pending' := Rearmed(pending, m[id].timer, options, next, id);
            && WellFormed(m[id := r], pending', if Arms(options) then next + 1 else next)
            && (TimersLiveIn(m, pending) && !LeavesTimer(options, ArmedFor(m, pending, id))
                ==> TimersLiveIn(m[id := r], pending'))
  {
    var r := Edited(m[id], options, next);
    var pending' := Rearmed(pending, m[id].timer, options, next, id);
    StoreKeepsWellFormed(m, pending, next, id, r, pending', if Arms(options) then next + 1 else next);
    if TimersLiveIn(m, pending) && !LeavesTimer(options, ArmedFor(m, pending, id)) {
      forall h | h in pending'
        ensures (h in pending && pending'[h] == pending[h] && pending[h] != id) || (pending'[h] == id && r.timer == Some(h))
      {
        if h in pending && pending[h] == id {
          assert m[id].timer == Some(h);
        }
      }
      StoreKeepsTimersLive(m, pending, id, r, pending');
    }
  }

  /**
   * The entry `addNotification(options)` creates, in terms of the caller's
   * options: title and text as given unless undefined (else empty), action
   * and timeout as given when the property is present (even when it holds
   * undefined) and the defaults `''` and 5000 otherwise, a timer armed
   * exactly when the timeout is neither undefined nor null, and `active`
   * never set.
   */
  lemma NewEntry(id: string, options: Options, handle: nat)
    ensures var r := Edited(Prepared(None, id), MergeOptions(Defaults, options), handle);
            && r.element == Some(Element(true, Override(Str(""), Get(options, "title")),
                                         Override(Str(""), Get(options, "text")), DomId(id)))
            && r.action == (if "action" in options then options["action"] else Str(""))
            && r.timeout == (if "timeout" in options then options["timeout"] else Num(5000))
            && r.timer == (if r.timeout == Undefined || r.timeout == Null then None else Some(handle))
            && r.active == Undefined
  {
    var merged := MergeOptions(Defaults, options);
    MergedGet(Defaults, options, "title");
    MergedGet(Defaults, options, "text");
    MergedGet(Defaults, options, "action");
    MergedGet(Defaults, options, "timeout");
  }

  /** An entry after `removeNotification`: element detached, `active` false (dist/snarl.js:135, 137). */
  function Removed(r: Record): Record
    requires r.element.Some?
  {
    r.(element := Some(r.element.value.(attached := false)), active := Bool(false))
  }

  /** Notification `id` exists in `m` and its element is in the container. */
  predicate AttachedIn(m: map<string, Record>, id: string) {
    id in m && m[id].element.Some? && m[id].element.value.attached
  }

  /**
   * Each entry has its element, carrying the entry's own DOM id; every handle
   * in use is below `next`, the next one `setTimeout` hands out.
   */
  ghost predicate WellFormed(m: map<string, Record>, pending: map<nat, string>, next: nat) {
    && (forall k :: k in m ==> m[k].element.Some? && m[k].element.value.domId == DomId(k))
    && (forall k :: k in m && m[k].timer.Some? ==> m[k].timer.value < next)
    && (forall h :: h in pending ==> h < next)
  }

  /**
   * Every armed timer is the one its notification holds, and that
   * notification is attached. So at most one timer is armed per id, and a
   * firing timer always finds an attached element.
   */
  ghost predicate TimersLiveIn(m: map<string, Record>, pending: map<nat, string>) {
    forall h :: h in pending ==> pending[h] in m && m[pending[h]].timer == Some(h) && AttachedIn(m, pending[h])
  }

  /** Entry `id` holds a timer that is still armed. */
  ghost predicate ArmedFor(m: map<string, Record>, pending: map<nat, string>, id: string) {
    id in m && m[id].timer.Some? && m[id].timer.value in pending
  }

  /**
   * An edit leaves the entry's armed timer behind: it replaces the timer
   * (a defined timeout) but, as written, skips clearing the old one because
   * the options object carries `timer: null` (dist/snarl.js:112).
   */
  predicate LeavesTimer(options: Options, armed: bool) {
    Get(options, "timeout") != Undefined && Get(options, "timer") == Null && armed
  }

  /**
   * Storing entry `r` under `id` together with a new timer queue keeps the
   * timer discipline when the queue's other timers are the old ones for
   * other ids and its timers for `id` are the one `r` holds.
   */
  lemma StoreKeepsTimersLive(m: map<string, Record>, pending: map<nat, string>, id: string, r: Record, pending': map<nat, string>)
    requires TimersLiveIn(m, pending)
    requires r.element.Some? && r.element.value.attached
    requires forall h :: h in pending' ==>
               (h in pending && pending'[h] == pending[h] && pending[h] != id) || (pending'[h] == id && r.timer == Some(h))
    ensures TimersLiveIn(m[id := r], pending')
  {
  }

  /** Storing an entry with its own DOM id and a handle already handed out keeps the registry well formed. */
  lemma StoreKeepsWellFormed(m: map<string, Record>, pending: map<nat, string>, next: nat,
                             id: string, r: Record, pending': map<nat, string>, next': nat)
    requires WellFormed(m, pending, next) && next <= next'
    requires r.element.Some? && r.element.value.domId == DomId(id)
    requires r.timer.Some? ==> r.timer.value < next'
    requires forall h :: h in pending' ==> h < next'
    ensures WellFormed(m[id := r], pending', next')
  {
  }

  /** Writing an entry twice leaves the second write; lets the ensures of an edit speak of one update. */
  lemma OverwriteEntry(m: map<string, Record>, id: string, first: Record, second: Record)
    ensures m[id := first][id := second] == m[id := second]
  {
  }

  /**
   * The body of `editNotification` (dist/snarl.js:101-131) once the element
   * exists, on the entry `record`, the host's timer queue `queue` and the
   * next handle `next`: each option that is not undefined is copied in, and
   * a defined `timeout` clears the old timer (unless `options.timer` is
   * null) and arms a new one unless it is null.
   */
  method ApplyEdit(record: Record, options: Options, queue: map<nat, string>, next: nat, id: string)
      returns (record': Record, queue': map<nat, string>, next': nat)
    requires record.element.Some?
    ensures record' == Edited(record, options, next)
    ensures queue' == Rearmed(queue, record.timer, options, next, id)
    ensures next' == if Arms(options) then next + 1 else next
  {
    record', queue', next' := record, queue, next;
    var element := record.element.value;
    if Get(options, "text") != Undefined {
      element := element.(text := Get(options, "text"));
    }
    if Get(options, "title") != Undefined {
      element := element.(title := Get(options, "title"));
    }
    record' := record'.(element := Some(element));
    if Get(options, "timeout") != Undefined {
      if Get(options, "timer") != Null {
        queue' := Cancel(queue', record.timer);
      }
      var timer: Option<nat> := None;
      if Get(options, "timeout") != Null {
        // setTimeout(() => removeNotification(id), timeout)
        timer := Some(next');
        queue' := queue'[next' := id];
        next' := next' + 1;
      }
      record' := record'.(timer := timer, timeout := Get(options, "timeout"));
    }
    if Get(options, "action") != Undefined {
      record' := record'.(action := Get(options, "action"));
    }
  }

  /** What a click on `chain[0]` did. */
  datatype ClickOutcome =
    | Ignored            // the click hit the container itself
    | Dismissed(id: string)  // a close click removed notification `id`
    | BodyClick(id: string)  // a click on the body of notification `id`
    | Fault              // the handler threw a TypeError before changing anything

  class Snarl {
    /** `Snarl.count`: how many notifications were ever added. */
    var count: nat
    /** `Snarl.notifications`: entries are never deleted, only marked inactive. */
    var notifications: map<string, Record>
    /** The host's timer queue: each armed handle and the id its callback removes. */
    var pending: map<nat, string>
    /** The next handle `setTimeout` hands out. */
    var nextHandle: nat

    /**
     * What every operation keeps: each entry has its element, with its own
     * DOM id; every handle in use is below `nextHandle`, so each new handle
     * is fresh.
     */
    ghost predicate Valid()
      reads this
    {
      WellFormed(notifications, pending, nextHandle)
    }

    /** Notification `id` exists and its element is in the container. */
    predicate Attached(id: string)
      reads this
    {
      AttachedIn(notifications, id)
    }

    /**
     * The timer discipline that clearing the old timer before arming a new
     * one (dist/snarl.js:112-113) aims at: every armed timer is the one its
     * notification holds, and that notification is attached.
     */
    ghost predicate TimersLive()
      reads this
    {
      TimersLiveIn(notifications, pending)
    }

    lemma AtMostOneTimer(h1: nat, h2: nat)
      requires TimersLive() && h1 in pending && h2 in pending && pending[h1] == pending[h2]
      ensures h1 == h2
    {
    }

    /** The object literal (dist/snarl.js:66-68): no notifications yet. */
    constructor ()
      ensures Valid() && TimersLive()
      ensures count == 0 && notifications == map[] && pending == map[] && nextHandle == 0
    {
      count := 0;
      notifications := map[];
      pending := map[];
      nextHandle := 0;
    }

    /**
     * `addNotificationHTML(id)` (dist/snarl.js:32-47): creates the entry and
     * its element when missing and attaches the element when it is not
     * attached. Calling it on an existing entry only re-attaches.
     */
    method AddNotificationHtml(id: string)
      requires Valid()
      modifies this
      ensures Valid() && (old(TimersLive()) ==> TimersLive())
      ensures notifications == old(notifications)[id := Prepared(Lookup(old(notifications), id), id)]
      ensures count == old(count) && pending == old(pending) && nextHandle == old(nextHandle)
    {
      var record := if id in notifications then notifications[id] else Blank;
      if record.element.None? {
        record := record.(element := Some(NewElement(id)));
      }
      if !record.element.value.attached {
        // appendChild into the container
        record := record.(element := Some(record.element.value.(attached := true)));
      }
      notifications := notifications[id := record];
    }

    /**
     * `editNotification(id, options)` (dist/snarl.js:101-131). An unknown id
     * is not an error: the entry is created (and a removed one re-attached)
     * first. Title, text and action change only when the option is not
     * undefined. A defined `timeout` replaces the timer: one is armed exactly
     * when the timeout is not null, and the timeout is stored as given.
     *
     * As written, the old timer is cleared only when `options.timer !==
     * null` (line 112), a property of the options object rather than of the
     * entry. For the usual options, which have no `timer`, the old timer is
     * always cleared; a caller passing `timer: null` leaves it armed.
     * The unused `reopen` parameter is omitted; the `options.timeout ===
     * undefined` branch (lines 116-118) sits inside a test of the opposite
     * and is unreachable.
     */
    method EditNotification(id: string, options: Options)
      requires Valid()
      modifies this
      ensures Valid()
      ensures old(TimersLive()) && !LeavesTimer(options, old(ArmedFor(notifications, pending, id))) ==> TimersLive()
      ensures Attached(id)
      ensures var r0 := Prepared(Lookup(old(notifications), id), id);
              && notifications == old(notifications)[id := Edited(r0, options, old(nextHandle))]
              && pending == Rearmed(old(pending), r0.timer, options, old(nextHandle), id)
              && nextHandle == if Arms(options) then old(nextHandle) + 1 else old(nextHandle)
      ensures count == old(count)
    {
      AddNotificationHtml(id);
      ghost var r0 := notifications[id];
      assert r0 == Prepared(Lookup(old(notifications), id), id);
      var record, queue, next := ApplyEdit(notifications[id], options, pending, nextHandle, id);
      EditKeepsInvariants(notifications, pending, nextHandle, id, options);
      OverwriteEntry(old(notifications), id, r0, record);
      notifications, pending, nextHandle := notifications[id := record], queue, next;
    }

    /**
     * The retry loop of `addNotification` (dist/snarl.js:85-88): `makeID` is
     * called on successive blocks of five values of the random stream `rnd`
     * until the id drawn is not yet a key of the registry. The precondition
     * says the stream holds such a draw (the source relies on the loop
     * ending); the result is the first one.
     */
    method DrawFreshId(rnd: seq<real>) returns (id: string)
      requires AllRandom(rnd) && YieldsFreshId(rnd, notifications.Keys)
      ensures IsId(id) && id !in notifications
      ensures exists n :: 0 <= n < |rnd| / IdLength && id == Draw(rnd, n)
                          && forall j :: 0 <= j < n ==> Draw(rnd, j) in notifications
    {
      var n := 0;
      id := MakeId(rnd[0..IdLength]);
      ghost var w :| 0 <= w < |rnd| / IdLength && Draw(rnd, w) !in notifications;
      while id in notifications
        invariant 0 <= n <= w
        invariant id == Draw(rnd, n)
        invariant forall j :: 0 <= j < n ==> Draw(rnd, j) in notifications
        decreases w - n
      {
        n := n + 1;
        id := MakeId(rnd[IdLength * n..IdLength * n + IdLength]);
      }
    }

    /**
     * `addNotification(options)` (dist/snarl.js:83-99): counts the
     * notification, draws a fresh id from the random stream `rnd`, merges
     * the options over the defaults, builds the element and applies the
     * merged options as an edit. Missing or null `options` count as `{}`.
     */
    method AddNotification(options: Option<Options>, rnd: seq<real>) returns (id: string)
      requires Valid()
      requires AllRandom(rnd) && YieldsFreshId(rnd, notifications.Keys)
      modifies this
      ensures Valid() && (old(TimersLive()) ==> TimersLive())
      ensures IsId(id) && id !in old(notifications) && Attached(id)
      ensures exists n :: 0 <= n < |rnd| / IdLength && id == Draw(rnd, n)
                          && forall j :: 0 <= j < n ==> Draw(rnd, j) in old(notifications)
      ensures count == old(count) + 1
      ensures var merged := MergeOptions(Defaults, if options.Some? then options.value else map[]);
              && notifications == old(notifications)[id := Edited(Prepared(None, id), merged, old(nextHandle))]
              && pending == Rearmed(old(pending), None, merged, old(nextHandle), id)
              && nextHandle == if Arms(merged) then old(nextHandle) + 1 else old(nextHandle)
    {
      count := count + 1;
      id := DrawFreshId(rnd);
      var given := if options.Some? then options.value else map[];
      var merged := MergeOptions(Defaults, given);
      AddNotificationHtml(id);
      PreparedIdempotent(None, id);
      assert !ArmedFor(notifications, pending, id);
      EditNotification(id, merged);
      OverwriteEntry(old(notifications), id, Prepared(None, id), notifications[id]);
    }

    /**
     * `removeNotification(id)` (dist/snarl.js:133-138): detaches the element,
     * clears the timer and marks the entry inactive; the entry stays in the
     * registry. The element is looked up by its DOM id, so on an id whose
     * element is not attached the source throws: that is the precondition.
     */
    method RemoveNotification(id: string)
      requires Valid() && Attached(id)
      modifies this
      ensures Valid() && (old(TimersLive()) ==> TimersLive())
      ensures notifications == old(notifications)[id := Removed(old(notifications)[id])]
      ensures pending == Cancel(old(pending), old(notifications)[id].timer)
      ensures old(TimersLive()) ==> forall h :: h in pending ==> pending[h] != id
      ensures id in notifications && !Attached(id) && !IsDismissed(id)
      ensures count == old(count) && nextHandle == old(nextHandle)
    {
      var record := notifications[id];
      record := record.(element := Some(record.element.value.(attached := false)));
      pending := Cancel(pending, record.timer);
      record := record.(active := Bool(false));
      notifications := notifications[id := record];
    }

    /**
     * The host runs the callback of pending timer `h` (dist/snarl.js:120-123),
     * which calls `removeNotification`. If the element is no longer attached
     * that call throws inside the callback and nothing else changes; under
     * `TimersLive` this never happens.
     */
    method Fire(h: nat) returns (removed: bool)
      requires Valid() && h in pending
      modifies this
      ensures Valid() && (old(TimersLive()) ==> TimersLive() && removed)
      ensures removed == old(Attached(pending[h]))
      ensures var id := old(pending)[h];
              if removed then
                && notifications == old(notifications)[id := Removed(old(notifications)[id])]
                && pending == Cancel(old(pending) - {h}, old(notifications)[id].timer)
              else
                notifications == old(notifications) && pending == old(pending) - {h}
      ensures count == old(count) && nextHandle == old(nextHandle)
    {
      var id := pending[h];
      pending := pending - {h};
      removed := Attached(id);
      if removed {
        RemoveNotification(id);
      }
    }

    /**
     * `clickNotification(event)` (dist/snarl.js:140-175); `chain` is the
     * clicked element and its ancestors. A close click removes the parsed
     * id. Where the source throws (no notification above the target, an id
     * attribute the pattern does not match, or a close click on an id whose
     * element is not in the document) the outcome is `Fault` and nothing
     * changes.
     *
     * A body click changes nothing: the source reads the entry
     * `Snarl.notifications[id]` where it evidently meant its `action`
     * (line 166), then tests `isString` and `isFunction` (lines 169, 171),
     * properties no entry has, so neither navigation nor a callback ever
     * happens.
     */
    method ClickNotification(chain: seq<Node>) returns (outcome: ClickOutcome)
      requires Valid() && chain != []
      modifies this
      ensures Valid() && (old(TimersLive()) ==> TimersLive())
      ensures match Route(chain)
        case OnWrapper => outcome == Ignored
        case RanOff => outcome == Fault
        case Found(b, close) =>
          b < |chain| &&
          match ParseId(chain[b].idAttr)
          case None => outcome == Fault
          case Some(id) =>
            outcome == if !close then BodyClick(id) else if old(Attached(id)) then Dismissed(id) else Fault
      ensures outcome.Dismissed? ==> old(Attached(outcome.id))
      ensures outcome.Dismissed? ==>
                && notifications == old(notifications)[outcome.id := Removed(old(notifications)[outcome.id])]
                && pending == Cancel(old(pending), old(notifications)[outcome.id].timer)
      ensures !outcome.Dismissed? ==> notifications == old(notifications) && pending == old(pending)
      ensures count == old(count) && nextHandle == old(nextHandle)
    {
      var w := WalkToNotification(chain);
      RouteMeaning(chain);
      match w {
        case OnWrapper =>
          return Ignored;
        case RanOff =>
          // `notification.className` of null
          return Fault;
        case Found(at, close) =>
          var id := ParseId(chain[at].idAttr);
          if id.None? {
            // `null[1]`
            return Fault;
          }
          if close {
            if !Attached(id.value) {
              // `document.getElementById` finds no element: `null.parentElement`
              return Fault;
            }
            RemoveNotification(id.value);
            return Dismissed(id.value);
          }
          return BodyClick(id.value);
      }
    }

    /**
     * `isDismissed(id)` (dist/snarl.js:177-179). As written it tests
     * `parentElement !== null`, so it answers true while the element is
     * still attached and false once the notification was removed: the
     * opposite of its name.
     */
    function IsDismissed(id: string): (dismissed: bool)
      reads this
      requires Valid() && id in notifications
      ensures dismissed <==> Attached(id)
    {
      notifications[id].element.value.attached
    }

    /** `setTitle(id, title)` (dist/snarl.js:181-183): `editNotification(id, {title: title})`. */
    method SetTitle(id: string, title: Value)
      requires Valid()
      modifies this
      ensures Valid() && (old(TimersLive()) ==> TimersLive())
      ensures var r0 := Prepared(Lookup(old(notifications), id), id);
              var e0 := r0.element.value;
              notifications == old(notifications)[id := r0.(element := Some(e0.(title := Override(e0.title, title))))]
      ensures pending == old(pending) && nextHandle == old(nextHandle) && count == old(count)
    {
      EditNotification(id, map["title" := title]);
    }

    /** `setText(id, text)` (dist/snarl.js:185-187): `editNotification(id, {text: text})`. */
    method SetText(id: string, text: Value)
      requires Valid()
      modifies this
      ensures Valid() && (old(TimersLive()) ==> TimersLive())
      ensures var r0 := Prepared(Lookup(old(notifications), id), id);
              var e0 := r0.element.value;
              notifications == old(notifications)[id := r0.(element := Some(e0.(text := Override(e0.text, text))))]
      ensures pending == old(pending) && nextHandle == old(nextHandle) && count == old(count)
    {
      EditNotification(id, map["text" := text]);
    }

    /**
     * `setTimeout(id, timeout)` (dist/snarl.js:189-191):
     * `editNotification(id, {timeout: timeout})`. The options object has no
     * `timer`, so the previous timer is always cleared.
     */
    method SetTimeout(id: string, timeout: Value)
      requires Valid()
      modifies this
      ensures Valid() && (old(TimersLive()) ==> TimersLive())
      ensures var r0 := Prepared(Lookup(old(notifications), id), id);
              notifications == old(notifications)[id := if timeout == Undefined then r0 else r0.(
                timeout := timeout,
                timer := if timeout == Null then None else Some(old(nextHandle)))]
      ensures var r0 := Prepared(Lookup(old(notifications), id), id);
              pending == (if timeout == Undefined then old(pending)
                          else if timeout == Null then Cancel(old(pending), r0.timer)
                          else Cancel(old(pending), r0.timer)[old(nextHandle) := id])
      ensures nextHandle == if timeout == Undefined || timeout == Null then old(nextHandle) else old(nextHandle) + 1
      ensures count == old(count)
    {
      EditNotification(id, map["timeout" := timeout]);
    }
  }

  /** The id drawn by the `n`-th call of `makeID` on the random stream `rnd`. */
  function Draw(rnd: seq<real>, n: nat): string
    requires AllRandom(rnd) && n < |rnd| / IdLength
  {
    DrawnId(rnd[IdLength * n..IdLength * n + IdLength])
  }

  /** Some call of `makeID` on the stream `rnd` yields an id outside `used`. */
  predicate YieldsFreshId(rnd: seq<real>, used: set<string>)
    requires AllRandom(rnd)
  {
    exists n :: 0 <= n < |rnd| / IdLength && Draw(rnd, n) !in used
  }

  /**
   * Because the options object, not the entry, is tested before clearing
   * (dist/snarl.js:112), an edit that passes `timer: null` to a fresh
   * notification leaves its first timer armed: two timers then target one
   * notification, and the older one no longer matches the entry.
   */
  lemma {:induction false} TimerNullLeaksTimer(id: string)
    ensures var m := map[id := Edited(Prepared(None, id), MergeOptions(Defaults, map[]), 0)];
            var pending := Rearmed(map[], None, MergeOptions(Defaults, map[]), 0, id);
            var edit := map["timeout" := Num(100), "timer" := Null];
            var m' := m[id := Edited(m[id], edit, 1)];
            var pending' := Rearmed(pending, m[id].timer, edit, 1, id);
            && WellFormed(m, pending, 1) && TimersLiveIn(m, pending)
            && WellFormed(m', pending', 2) && !TimersLiveIn(m', pending')
            && pending' == map[0 := id, 1 := id]
  {
    var merged := MergeOptions(Defaults, map[]);
    assert Get(merged, "timeout") == Num(5000) && Get(merged, "timer") == Undefined;
    var r := Edited(Prepared(None, id), merged, 0);
    var m := map[id := r];
    var pending := Rearmed(map[], None, merged, 0, id);
    assert r.timer == Some(0) && pending == map[0 := id];
    var edit := map["timeout" := Num(100), "timer" := Null];
    assert Get(edit, "timeout") == Num(100) && Get(edit, "timer") == Null;
    var r' := Edited(r, edit, 1);
    var pending' := Rearmed(pending, r.timer, edit, 1, id);
    assert r'.timer == Some(1) && pending' == map[0 := id, 1 := id];
    var m' := m[id := r'];
    assert !TimersLiveIn(m', pending') by {
      assert 0 in pending' && m'[pending'[0]].timer != Some(0);
    }
  }

  /** The same run on the class: a fresh registry, one notification, one such edit. */
  method StaleTimerExample() returns (snarl: Snarl, id: string)
    ensures snarl.Valid() && !snarl.TimersLive()
    ensures snarl.pending == map[0 := id, 1 := id]
  {
    snarl := new Snarl();
    var rnd := [0.0, 0.0, 0.0, 0.0, 0.0];
    assert Draw(rnd, 0) !in snarl.notifications.Keys;
    id := snarl.AddNotification(None, rnd);
    TimerNullLeaksTimer(id);
    ghost var merged := MergeOptions(Defaults, map[]);
    ghost var m := map[id := Edited(Prepared(None, id), merged, 0)];
    ghost var pending := Rearmed(map[], None, merged, 0, id);
    assert snarl.notifications == m && snarl.pending == pending && snarl.nextHandle == 1;
    var edit := map["timeout" := Num(100), "timer" := Null];
    snarl.EditNotification(id, edit);
    assert snarl.notifications == m[id := Edited(m[id], edit, 1)];
    assert snarl.pending == Rearmed(pending, m[id].timer, edit, 1, id);
  }
}

=== FILE: values.dfy ===
/** The usual optional value. */
module Optional {
  datatype Option<T> = None | Some(value: T)
}

/**
 * The JavaScript values that flow through Snarl's option objects, and the
 * flat, override-wins merge of two option objects (`merge_options`).
 */
module JsValues {

  /**
   * A JavaScript value as far as Snarl looks at it. Numbers are kept as
   * integers (timeouts are milliseconds); a function is an opaque reference.
   */
  datatype Value =
    | Undefined
    | Null
    | Bool(b: bool)
    | Num(n: int)
    | Str(s: string)
    | Fn(ref: nat)

  /**
   * An options object: its own enumerable properties. A key can be present
   * and still hold `Undefined` (`{title: undefined}`).
   */
  type Options = map<string, Value>

  /** Property read `o[key]`: a missing property reads as `undefined`. */
  function Get(o: Options, key: string): Value {
    if key in o then o[key] else Undefined
  }

  /**
   * `merge_options(obj1, obj2)` (dist/snarl.js:58-63): a fresh object that
   * gets every property of `base`, then every property of `overrides` on
   * top. Neither input is changed (values are immutable here).
   */
  function MergeOptions(base: Options, overrides: Options): (merged: Options)
    ensures merged.Keys == base.Keys + overrides.Keys
    ensures forall k :: k in overrides ==> merged[k] == overrides[k]
    ensures forall k :: k in base && k !in overrides ==> merged[k] == base[k]
  {
    base + overrides
  }

  /** Reading a property of a merged object: the override wins when present, even when it holds `undefined`. */
  lemma MergedGet(base: Options, overrides: Options, key: string)
    ensures Get(MergeOptions(base, overrides), key)
            == if key in overrides then overrides[key] else Get(base, key)
  {
  }
}
